=== FILE: README.md ===
# Dropdown helpers, view state and related posts — a Dafny model

This project models the three pieces of sequential logic in the `tribe-common`
plugin code:

- **Dropdown helpers** (`src/resources/js/dropdowns.js`): the depth-first
  item search `find_item`, `search_id`, the case-insensitive `matcher`,
  preselection by `init_selection`, free-form and tag choices, the separator
  and regular-expression strings built by `element`, the AJAX response check
  `ajax.results`, and the list `action_change` keeps in the element's
  `value` data and `data-value` attribute.
- **View state** (`src/Tribe/Views/Base_View.php`): a `BaseView` class whose
  methods update the property map, the stored `WP_Query` and posts, the
  generated flag and the output, as the PHP methods do; a `Query` class for
  the `WP_Query` object the view writes into; a `VendorScripts` class for the
  static handle registry; and the pure `getMinFile` lookup.
- **Related posts** (`vendor/tribe-related-posts-events/tribe-related-posts.php`):
  `getPosts` as a method of a class holding the static per-post cache, with
  its two loops as methods, a specification function for the selection, and
  `has_related_posts`.

Host calls are parameters: `get_the_ID`, `get_the_tags`, the two filtered
`get_posts` queries, the global `$wp_query`, the registered view
definition, `file_exists`, `SCRIPT_DEBUG`, `doing_ajax`, template lookup,
the output of including a template, the `data-create-choice-template`
template and `JSON.stringify`.

Modules: `Wrappers` (Option, the JavaScript error, a throw-or-return
outcome), `Text` (ASCII upper-casing, comma split and join with their
round trips), `Dropdowns`, `Views`, `RelatedPosts`.

Points where the code does something other than its comments or names suggest,
and the model follows the code:

- `$select.is( 'data-separator' )` tests the element's tag name, not an
  attribute, so the separator of every ordinary element is reset to `','`;
  the token pattern is `^([^,]+)$` and the split pattern `(?:[,])`.
- `regexToken` and `regexSplit` exist only for `[multiple]` elements. For
  other elements `term.match(undefined)` accepts every term and
  `val().split(undefined)` keeps the whole value.
- `search_id`'s final `undefined === e` test never fires: `e.id` was already
  read, which throws for an undefined `e`.
- `set_data` drops a `posts` entry of its argument: `set_query` always ends
  in `reset_posts`, which unsets the posts and takes them from the query.
- The cache guard of `getPosts` ends in `true == false`, so the cache is
  written on every call and never read.
- `$tags` defaults to `false` in every public entry point except `getPosts`
  itself, whose default is `array()`. A `false` on a post without tags stays
  `false`, which `count` takes for one tag, so the first query runs with no
  tag filter and returns unrelated posts.

## Model

| member | source | states |
|---|---|---|
| `Text.Split` | vendor/tribe-related-posts-events/tribe-related-posts.php:54-56 | `explode(',', …)` and a comma `split` always give at least one piece |
| `Text.SplitPiecesLackSeparator` | src/resources/js/dropdowns.js:96 | no piece of a split value contains the separator |
| `Text.JoinSplit` | vendor/tribe-related-posts-events/tribe-related-posts.php:55 | joining the pieces of a split string with the separator gives the string back |
| `Text.SplitJoin` | vendor/tribe-related-posts-events/tribe-related-posts.php:74 | splitting a joined non-empty list whose elements have no separator gives the list back |
| `Text.StartsWithIgnoringCaseIsCaseBlind` | src/resources/js/dropdowns.js:73 | the upper-cased prefix test gives the same verdict whatever the case of the text or the term |
| `Text.PrefixStartsWithIgnoringCase` | src/resources/js/dropdowns.js:73 | an exact prefix passes the case-insensitive test |
| `Dropdowns.FirstMatch` | src/resources/js/dropdowns.js:118-119 | the reference definition: none exactly when no element matches, otherwise the matching element with no match before it |
| `Dropdowns.FindInIsFirstPreorderMatch` | src/resources/js/dropdowns.js:133-153 | the recursive search returns the first match of the pre-order listing: an item, then its children, then its later siblings |
| `Dropdowns.FindItem` | src/resources/js/dropdowns.js:128-154 | `false` when the haystack is not an array; a found item matches the description by `id` or `text` and sits in the haystack at some depth |
| `Dropdowns.FindItemSpec` | src/resources/js/dropdowns.js:128-154 | `false` exactly when the haystack is not an array or nothing at any depth matches by `id` or `text`; otherwise the first match in depth-first order, an element of the haystack or of a nested `children` list |
| `Dropdowns.SearchId` | src/resources/js/dropdowns.js:50-61 | the first defined of `e.id`, `e.ID`, `e.value`, else undefined |
| `Dropdowns.SameText` | src/resources/js/dropdowns.js:76 | `_.where(tags, {text})`: exactly the tags with that text; its first element is the first such tag |
| `Dropdowns.MatcherAsWritten` | src/resources/js/dropdowns.js:70-84 | true whenever the text starts with the term ignoring case; false when it does not and the tags are undefined or empty; it can throw only inside the tag fallback, i.e. when the prefix test failed on a non-empty tag list |
| `Dropdowns.MatcherAsWrittenThrows` | src/resources/js/dropdowns.js:75-80 | the matcher as written throws when no tag carries the searched text |
| `Dropdowns.Matcher` | src/resources/js/dropdowns.js:70-84 | true whenever the text starts with the term ignoring case; otherwise true exactly when the tags are defined and the first tag with this text has an ID starting with the term |
| `Dropdowns.MatcherAgreesWithAsWritten` | src/resources/js/dropdowns.js:70-84 | where the code as written returns, the corrected matcher returns the same; for tags whose IDs are strings it throws exactly when the prefix test fails, the tags are a non-empty list, and no tag has this text or that tag has no ID |
| `Dropdowns.CurrentValues` | src/resources/js/dropdowns.js:94-96 | for a multiple element the values are the comma-free pieces that join back to the value; otherwise the whole value |
| `Dropdowns.LocatedSpec` | src/resources/js/dropdowns.js:99-106 | at most one item per value; none when the data is not an array; each is in the data and matches one of the values |
| `Dropdowns.InitSelection` | src/resources/js/dropdowns.js:93-113 | `make_selection` is called at most once: with every located item in value order when multiple, with the first otherwise, not at all when nothing was located |
| `Dropdowns.TokenSeparators` | src/resources/js/dropdowns.js:244-252 | for every element that is not a `<data-separator>` element the token separators are `[',']` |
| `Dropdowns.BuildPatterns` | src/resources/js/dropdowns.js:256-266 | the joined element arrays are `^(` + one `[^t]+` per token + `)$` and `(?:` + one `[t]` per token + `)` |
| `Dropdowns.CommaPatterns` | src/resources/js/dropdowns.js:244-266 | for ordinary elements the patterns are `^([^,]+)$` and `(?:[,])` |
| `Dropdowns.FreeformChoice` | src/resources/js/dropdowns.js:17-38 | a choice exactly when the term matches the token pattern and, with `data-int`, has a digit; the choice is `{id: term, text: term or the rendered template, new: true}` |
| `Dropdowns.FreeformOnMultiple` | src/resources/js/dropdowns.js:21-31 | on a multiple element a term is accepted exactly when it is non-empty, has no comma and, with `data-int`, has a digit |
| `Dropdowns.TagsChoice` | src/resources/js/dropdowns.js:278-282 | the tags choice is `{id: term, text: term}` exactly when the term matches the token pattern |
| `Dropdowns.ParseResults` | src/resources/js/dropdowns.js:313-334 | `response.data` unchanged exactly when the response and its data are plain objects with `success` and `results` and `success` is truthy; `{results: []}` and the case's log message otherwise |
| `Dropdowns.WithoutMultiset` | src/resources/js/dropdowns.js:388 | `_.without` drops every copy of the value and keeps every other element as often as before |
| `Dropdowns.WithoutAppended` | src/resources/js/dropdowns.js:388 | dropping a value just appended to a list without it restores the list |
| `Dropdowns.DropdownElement.constructor` | src/resources/js/dropdowns.js:369-370 | the element starts with the given flags, value data and attribute |
| `Dropdowns.DropdownElement.ActionChange` | src/resources/js/dropdowns.js:368-395 | nothing changes unless the element is multiple and has a source; then the value data is the updated list and `data-value` is its JSON |
| `Dropdowns.AddThenRemove` | src/resources/js/dropdowns.js:380-385 | an added item is appended at the end of the stored array even when an equal item is already there, or becomes `[item]` when no array is stored; removing a newly added item gives back the list a change without an item stores |
| `Dropdowns.RemovalDropsEveryCopy` | src/resources/js/dropdowns.js:386-391 | after a removal no copy of the value is left and the other values keep their multiplicity; with no array stored the list becomes empty |
| `Views.PropertiesAfterSetSpec` | src/Tribe/Views/Base_View.php:44-60 | every key of the three sources is kept with the latest source's value; an empty or missing outer template becomes the slug and an empty or missing inner template `slug/content`, non-empty ones are unchanged |
| `Views.BaseView.GetProperty` | src/Tribe/Views/Base_View.php:174-176 | the stored value for a set key, null for a missing one |
| `Views.Query.constructor` | src/Tribe/Views/Base_View.php:104 | a blank `WP_Query` has no posts and a post count of 0 |
| `Views.Query.RewindPosts` | src/Tribe/Views/Base_View.php:184 | rewinding restarts the loop and leaves posts and count alone |
| `Views.BaseView.constructor` | src/Tribe/Views/Base_View.php:22-32 | properties are set from the definition and argument with template defaults; the query is the given one, else the global, else a fresh blank one; the posts are the query's |
| `Views.BaseView.SetProperties` | src/Tribe/Views/Base_View.php:41-61 | the properties become the merge of the old ones, the definition and the argument with the template defaults; nothing else changes |
| `Views.BaseView.SetData` | src/Tribe/Views/Base_View.php:74-77 | the query is the data's query, else the global, else a blank one; the posts always come from that query, so the post count is the number of the query's posts |
| `Views.BaseView.SetQuery` | src/Tribe/Views/Base_View.php:88-110 | the query is the given one, else the stored one, else the global, else a fresh blank one; the posts are re-derived from it, so the post count is the number of the query's posts |
| `Views.BaseView.ResetPosts` | src/Tribe/Views/Base_View.php:115-118 | the posts become the query's posts and the query is kept; the post count is the number of the query's posts |
| `Views.BaseView.SetPosts` | src/Tribe/Views/Base_View.php:128-144 | an explicit array is stored and written into the query's posts and post count, so the view's post count equals the query's, and the query's loop is rewound; otherwise stored posts stay, unset ones come from the query, and the query is not written; a missing query is set first; only the view and the query written to can change |
| `Views.BaseView.UpdateQueryPostData` | src/Tribe/Views/Base_View.php:181-185 | the query's posts equal the stored posts, its post count is their number, and its loop is rewound |
| `Views.BaseView.GetPosts` | src/Tribe/Views/Base_View.php:156-158 | the stored posts; unset posts read as the empty array |
| `Views.BaseView.GetPostCount` | src/Tribe/Views/Base_View.php:163-165 | the number of posts `get_posts` returns, 0 when none are stored; the contracts of `SetQuery`, `SetData`, `ResetPosts` and `SetPosts` tie it to the query |
| `Views.BaseView.Generate` | src/Tribe/Views/Base_View.php:353-380 | when the inner (AJAX) or outer template is located its rendering becomes the output and the view is generated; otherwise nothing changes |
| `Views.BaseView.GetOutput` | src/Tribe/Views/Base_View.php:389-394 | generates only while not generated; once generated the output never changes and is what is returned |
| `Views.SetQueryAsWritten` | src/Tribe/Views/Base_View.php:88-110 | whenever `set_query` as written returns, a query is stored and the posts are that query's posts |
| `Views.ResetPostsAsWritten` | src/Tribe/Views/Base_View.php:115-118 | whenever `reset_posts` as written returns, a query is stored and the posts are that query's posts |
| `Views.SetPostsAsWritten` | src/Tribe/Views/Base_View.php:128-144 | whenever `set_posts` as written returns, a query is stored and posts are set; they are the query's posts unless stored posts were kept, and with stored posts, a stored query and no argument nothing changes |
| `Views.SetQueryAsWrittenDiverges` | src/Tribe/Views/Base_View.php:103-109 | with no query given or stored and an empty global `$wp_query`, `set_query` as written never returns |
| `Views.SetQueryAsWrittenWithQuery` | src/Tribe/Views/Base_View.php:92-109 | when a query is given or stored, or the global is not empty, `set_query` as written returns with the same query as the corrected one and its posts |
| `Views.WithHandleSpec` | src/Tribe/Views/Base_View.php:274-279 | adding a handle is idempotent, keeps the registry duplicate-free, appends a new handle at the end and keeps the order of the others |
| `Views.VendorScripts.constructor` | src/Tribe/Views/Base_View.php:15 | the registry starts empty |
| `Views.VendorScripts.GetVendorScripts` | src/Tribe/Views/Base_View.php:284-286 | the registered handles, each exactly once |
| `Views.VendorScripts.AddVendorScript` | src/Tribe/Views/Base_View.php:274-279 | the registry becomes the old one with the handle appended unless present, and stays duplicate-free |
| `Views.InsertMinBeforeExtension` | src/Tribe/Views/Base_View.php:316-321 | the minified name is the original with `.min` before the extension, and removing it restores the original |
| `Views.GetMinFile` | src/Tribe/Views/Base_View.php:314-331 | an existing minified candidate is always the answer; otherwise the answer is the original or `false` |
| `Views.GetMinFileSpec` | src/Tribe/Views/Base_View.php:314-331 | an existing minified candidate is returned; without one, the original when defaulting; `false` exactly when not defaulting and no existing candidate; with `SCRIPT_DEBUG` on only the original or `false`; any other name is an existing `.min.js`/`.min.css` form of the original |
| `RelatedPosts.Append` | vendor/tribe-related-posts-events/tribe-related-posts.php:66 | `$tags[] = …` yields an array ending in the slug after the old elements, `false` holding none |
| `RelatedPosts.RelatedSelection` | vendor/tribe-related-posts-events/tribe-related-posts.php:52-93 | empty tags array: `[]`; otherwise the first query's posts come first, and are the whole answer when only related posts are asked for |
| `RelatedPosts.FirstQueryKeepsTagString` | vendor/tribe-related-posts-events/tribe-related-posts.php:54-74 | a tag string is split on commas into a non-empty array, so the current post's tags are not consulted, and the first query's `tag` joins it back to the string as given |
| `RelatedPosts.RelatedSelectionSpec` | vendor/tribe-related-posts-events/tribe-related-posts.php:70-86 | an empty tags array: `[]`; else the first query asks for `count` posts excluding the current one, its posts come first, and the top-up runs exactly when not only-related and too few came back, asking for the missing number and excluding the current post and every post found |
| `RelatedPosts.EmptyTagsFallBack` | vendor/tribe-related-posts-events/tribe-related-posts.php:60-69 | with an empty list or `false` given, a post with tags has its tag slugs used in order; an empty list on a post without tags gives `[]` |
| `RelatedPosts.FalseTagsQueryUnfiltered` | vendor/tribe-related-posts-events/tribe-related-posts.php:60-74 | with the default `false` on a post without tags, the tags stay `false`, the first query has no tag filter, and its (unrelated) posts start the selection |
| `RelatedPosts.CollectSlugs` | vendor/tribe-related-posts-events/tribe-related-posts.php:64-68 | the loop appends every tag's slug in order, turning `false` into an array when there is at least one |
| `RelatedPosts.ExcludeList` | vendor/tribe-related-posts-events/tribe-related-posts.php:73-82 | the exclusion list is the current post's ID followed by the ID of every post found, in order |
| `RelatedPosts.RelatedPostsCache.constructor` | vendor/tribe-related-posts-events/tribe-related-posts.php:30 | the cache starts empty |
| `RelatedPosts.RelatedPostsCache.GetPosts` | vendor/tribe-related-posts-events/tribe-related-posts.php:52-93 | returns the selection whatever the cache holds, and overwrites the current post's cache entry with exactly that value |
| `RelatedPosts.RelatedPostsCache.HasRelatedPosts` | vendor/tribe-related-posts-events/tribe-related-posts.php:126-130 | true exactly when the selection `get_related_posts` returns is non-empty |

## Findings

| source | as written | input that shows it | evidently intended | confidence | as-written member | corrected member |
|---|---|---|---|---|---|---|
| src/resources/js/dropdowns.js:75-80 | when the prefix test fails and `args.tags` is non-empty, `possible[0]` is passed to `search_id` even when no tag has the text, and `search_id(undefined)` throws a TypeError (as does `toUpperCase` on a tag without ID) | term `"b"`, text `"a"`, `args.tags = [{id: "1", text: "z"}]` | answer `false` when no tag (or no ID) is found | high, not executed | `Dropdowns.MatcherAsWrittenThrows` | `Dropdowns.Matcher` |
| src/Tribe/Views/Base_View.php:103-109 | with no query given or stored and an empty global `$wp_query` (null, false, '', 0 or an empty array), line 108 overwrites the blank query of line 104 with the global; `set_posts` then finds the query empty and calls `set_query` again, without end (a non-empty global that is not a query does not loop: it is stored as the query) | `set_data(array())` while the global `$wp_query` is null | keep the blank `WP_Query` when the global is not a query | high, not executed | `Views.SetQueryAsWrittenDiverges` | `Views.BaseView.SetQuery` |

## Left out

- DOM, jQuery and Select2 wiring: `obj.dropdown`, event binding, the sticky-search handlers for open, close and removed, `data-*` carry-over to the container, CSS, width, clearing, HTML escaping and formatter options. They are effects on libraries outside this code.
- AJAX transport (`ajax.url`, `type`, `ajax.data`), the `'&#8212;'.repeat` formatter and `console.error` output; the model records which message `ajax.results` logs.
- Regular-expression semantics in general: only the token pattern built for one separator token is given meaning (`TokenMatches`).
- `Dropdowns.Matcher`: `toUpperCase` is modelled for ASCII letters only; Unicode case mapping (which can change a string's length) is not modelled.
- `Dropdowns.Matcher`: IDs are modelled as strings. A tag whose ID is a number makes `toUpperCase` throw at line 79 in the code as written; the corrected matcher is only defined for string IDs.
- `Dropdowns.MatcherAgreesWithAsWritten`: its "throws exactly when" holds for string IDs only; a numeric ID on the first tag with the text is a further throwing case, not modelled because IDs are strings here.
- `Dropdowns.FindItemSpec`: JavaScript's loose `==` is modelled as equality of strings; comparisons between numbers and strings, and inherited enumerable properties seen by `for … in`, are not modelled.
- `Dropdowns.DropdownElement.ActionChange`: `_.without` compares with `===` (object identity); the model compares values. `JSON.stringify` is a parameter. The in-place `push` shares the array with jQuery's data store; the model reassigns the field.
- `Dropdowns.ParseResults`: `results` is modelled as a list of items; a defined non-array `results` is not modelled.
- Asset enqueueing: `assets`, `handle_asset_package_request`, `prepare_asset_package_request`, `asset_package`, `get_asset_factory_instance` and `get_placeholder_handle` register assets with the host through factory singletons and hooks.
- Template rendering: `include` with output buffering, `Template::locate`, `doing_ajax` and the `do_action` hooks are parameters or omitted; a rendering that depends on the view's state is reduced to a function of the template path.
- `Views.PropertiesAfterSetSpec`: `array_merge` renumbers integer keys and keeps insertion order; the model uses string keys and an unordered map. `DIRECTORY_SEPARATOR` in the default inner template is `/`.
- `Views.BaseView.SetData`: data entries other than `query` and `posts` are not modelled; a non-empty global `$wp_query` that is not a `WP_Query` is treated as absent. Written as is, the code would store such a global as the query and `(array)` its `posts` property at line 142; only an empty global makes it loop.
- `Views.VendorScripts.AddVendorScript`: `in_array` compares loosely (numeric strings compare as numbers); the model compares strings exactly.
- `Views.GetMinFileSpec`: `file_exists` on the name with `WP_CONTENT_URL` replaced by `WP_CONTENT_DIR` is one predicate parameter.
- `RelatedPosts.RelatedPostsCache.GetPosts`: a `false` tag argument follows PHP 7 (`count(false)` is 1, `join(',', false)` is null); from PHP 8 `count(false)` throws a TypeError at line 60, which is not modelled; multisite `switch_to_blog`, `get_id_from_blogname` and `restore_current_blog` are not modelled, the query parameters standing for the chosen blog; `post_type` is passed through as one string; `$only_display_related` and `$count` are taken as already converted to a boolean and an integer.
- HTML output and registration: `displayPosts`, `related_posts`, `shortcodeFeature`, `setUpThumbnails`, `registerShortcodes` and `getInstance` echo markup or register hooks.

=== FILE: Dropdowns.dfy ===
/**
 * The pure and near-pure helpers of the dropdown script (src/resources/js/dropdowns.js):
 * item search, ID picking, matching, preselection, free-form choices, the
 * separator patterns, the AJAX response check, and the list kept by the
 * change handler.
 *
 * JavaScript objects are modelled as records whose optional fields are
 * `Option`s (`None` is `undefined`); strings stand for every identifier.
 */
module Dropdowns {
  import opened Wrappers
  import opened Text

  /**
   * A Select2 data object. `children` holds the nested array; a missing or
   * non-array `children` property is the empty list, which the search treats
   * the same way.
   */
  datatype Item = Item(id: Option<string>, ID: Option<string>, value: Option<string>,
                       text: Option<string>, children: seq<Item>)

  /** What `find_item` looks for: `{ id: …, text: … }`. */
  datatype Description = Description(id: string, text: string)

  predicate Matches(d: Description, item: Item)
  {
    item.id == Some(d.id) || item.text == Some(d.text)
  }

  // ---------------------------------------------------------------- find_item

  /** Every item of a forest, each one followed by its descendants, then by its later siblings. */
  function Preorder(items: seq<Item>): seq<Item>
    decreases items
  {
    if items == [] then []
    else
      assert items[0] in items;
      [items[0]] + Preorder(items[0].children) + Preorder(items[1..])
  }

  /** The first element of a flat list that matches the description. */
  function FirstMatch(d: Description, s: seq<Item>): (r: Option<Item>)
    ensures r.None? <==> forall k :: 0 <= k < |s| ==> !Matches(d, s[k])
    ensures r.Some? ==> exists k :: 0 <= k < |s| && s[k] == r.value && Matches(d, s[k]) &&
                                    forall j :: 0 <= j < k ==> !Matches(d, s[j])
  {
    if s == [] then None
    else if Matches(d, s[0]) then Some(s[0])
    else
      var r := FirstMatch(d, s[1..]);
      assert forall k :: 1 <= k < |s| ==> s[k] == s[1..][k - 1];
      r
  }

  /** The `for … in haystack` loop of `find_item`, with its recursive descent into `children`. */
  function FindIn(d: Description, items: seq<Item>): Option<Item>
    decreases items
  {
    if items == [] then None
    else if Matches(d, items[0]) then Some(items[0])
    else
      assert items[0] in items;
      match FindIn(d, items[0].children)
      case Some(found) => Some(found)
      case None => FindIn(d, items[1..])
  }

  /**
   * `find_item(description, haystack)`: `None` is the `false` it returns; a
   * non-array haystack is `None`. Whatever it finds matches the description
   * and sits in the haystack at some depth.
   */
  function FindItem(d: Description, haystack: Option<seq<Item>>): (r: Option<Item>)
    ensures haystack.None? ==> r.None?
    ensures r.Some? ==> haystack.Some? && r.value in Preorder(haystack.value) && Matches(d, r.value)
  {
    match haystack
    case None => None
    case Some(items) =>
      FindInIsFirstPreorderMatch(d, items);
      FindIn(d, items)
  }

  lemma FirstMatchAppend(d: Description, a: seq<Item>, b: seq<Item>)
    ensures FirstMatch(d, a + b) == if FirstMatch(d, a).Some? then FirstMatch(d, a) else FirstMatch(d, b)
  {
    if a != [] {
      assert (a + b)[1..] == a[1..] + b;
      FirstMatchAppend(d, a[1..], b);
    } else {
      assert a + b == b;
    }
  }

  /** The recursive search returns the first match in pre-order: children before later siblings. */
  lemma {:induction false} FindInIsFirstPreorderMatch(d: Description, items: seq<Item>)
    ensures FindIn(d, items) == FirstMatch(d, Preorder(items))
    decreases items
  {
    if items != [] {
      var head, kids, rest := items[0], items[0].children, items[1..];
      assert head in items;
      FindInIsFirstPreorderMatch(d, kids);
      FindInIsFirstPreorderMatch(d, rest);
      assert Preorder(items) == [head] + (Preorder(kids) + Preorder(rest));
      FirstMatchAppend(d, Preorder(kids), Preorder(rest));
    }
  }

  /**
   * `find_item` answers `false` exactly when the haystack is not an array or
   * nothing at any depth matches; otherwise it answers the first matching
   * item in depth-first order, which is an element of the haystack or of
   * some nested `children` list.
   */
  lemma FindItemSpec(d: Description, haystack: Option<seq<Item>>)
    ensures FindItem(d, haystack).None? <==>
              haystack.None? || forall x :: x in Preorder(haystack.value) ==> !Matches(d, x)
    ensures FindItem(d, haystack).Some? ==>
              haystack.Some? &&
              var flat := Preorder(haystack.value);
              exists k :: 0 <= k < |flat| && flat[k] == FindItem(d, haystack).value && Matches(d, flat[k]) &&
                          forall j :: 0 <= j < k ==> !Matches(d, flat[j])
  {
    if haystack.Some? {
      FindInIsFirstPreorderMatch(d, haystack.value);
    }
  }

  // ---------------------------------------------------------------- search_id

  /** The first defined value of a list of candidates. */
  function FirstDefined(candidates: seq<Option<string>>): (r: Option<string>)
    ensures r.None? <==> forall k :: 0 <= k < |candidates| ==> candidates[k].None?
    ensures r.Some? ==> exists k :: 0 <= k < |candidates| && candidates[k] == r &&
                                    forall j :: 0 <= j < k ==> candidates[j].None?
  {
    if candidates == [] then None
    else if candidates[0].Some? then candidates[0]
    else
      var r := FirstDefined(candidates[1..]);
      assert forall k :: 1 <= k < |candidates| ==> candidates[k] == candidates[1..][k - 1];
      r
  }

  /**
   * `search_id(e)`: `e.id`, else `e.ID`, else `e.value`, else `undefined`.
   * (Its final `undefined === e` test can never fire: `e.id` has already been
   * read, which throws for an undefined `e`.)
   */
  function SearchId(e: Item): (r: Option<string>)
    ensures r == FirstDefined([e.id, e.ID, e.value])
  {
    assert [e.id, e.ID, e.value][1..] == [e.ID, e.value] && [e.ID, e.value][1..] == [e.value];
    assert [e.value][1..] == [];
    assert FirstDefined([e.value]) == e.value;
    assert FirstDefined([e.ID, e.value]) == if e.ID.Some? then e.ID else e.value;
    if e.id.Some? then e.id
    else if e.ID.Some? then e.ID
    else e.value
  }

  // ---------------------------------------------------------------- matcher

  /** `_.where(tags, { text: text })`: the tags whose text is `text`, in order. */
  function SameText(tags: seq<Item>, text: string): (r: seq<Item>)
    ensures forall x :: x in r <==> x in tags && x.text == Some(text)
    ensures r != [] ==> exists k :: 0 <= k < |tags| && tags[k] == r[0] &&
                                    forall j :: 0 <= j < k ==> tags[j].text != Some(text)
  {
    if tags == [] then []
    else
      var rest := SameText(tags[1..], text);
      assert forall k :: 1 <= k < |tags| ==> tags[k] == tags[1..][k - 1];
      if tags[0].text == Some(text) then [tags[0]] + rest else rest
  }

  /**
   * `matcher(term, text)` exactly as written. When the prefix test fails and
   * `args.tags` is a non-empty list, `possible[0]` is read even if no tag has
   * this text; `search_id(undefined)` then throws, and so does
   * `test_value.toUpperCase()` when the tag has no ID.
   */
  function MatcherAsWritten(term: string, text: string, tags: Option<seq<Item>>): (r: Outcome<bool>)
    ensures StartsWithIgnoringCase(text, term) ==> r == Returns(true)
    ensures !StartsWithIgnoringCase(text, term) && (tags.None? || tags.value == []) ==> r == Returns(false)
    ensures r.Throws? ==> !StartsWithIgnoringCase(text, term) && tags.Some? && |tags.value| > 0
  {
    if StartsWithIgnoringCase(text, term) then Returns(true)
    else if tags.None? then Returns(false)
    else
      var possible := SameText(tags.value, text);
      if |tags.value| > 0 then
        if possible == [] then Throws(TypeError)
        else match SearchId(possible[0])
          case None => Throws(TypeError)
          case Some(v) => Returns(StartsWithIgnoringCase(v, term))
      else Returns(false)
  }

  /** A tag list on which the matcher as written throws instead of answering `false`. */
  lemma MatcherAsWrittenThrows()
    ensures MatcherAsWritten("b", "a", Some([Item(Some("1"), None, None, Some("z"), [])])) == Throws(TypeError)
  {
    var tag := Item(Some("1"), None, None, Some("z"), []);
    assert SameText([tag], "a") == [];
    assert !StartsWithIgnoringCase("a", "b") by {
      assert UpperString("b")[0] == 'B' && UpperString("a")[0] == 'A';
    }
  }

  /**
   * `matcher(term, text)` with the fallback made total: true when `text`
   * starts with `term` ignoring case; otherwise true only when `args.tags` is
   * a defined, non-empty list whose first tag with this text has an ID that
   * starts with `term`. A missing tag or ID answers `false`.
   */
  function Matcher(term: string, text: string, tags: Option<seq<Item>>): (r: bool)
    ensures StartsWithIgnoringCase(text, term) ==> r
    ensures !StartsWithIgnoringCase(text, term) ==>
              (r <==> tags.Some? &&
                      exists k :: (0 <= k < |tags.value| && tags.value[k].text == Some(text) &&
                                   (forall j :: 0 <= j < k ==> tags.value[j].text != Some(text)) &&
                                   SearchId(tags.value[k]).Some? &&
                                   StartsWithIgnoringCase(SearchId(tags.value[k]).value, term)))
  {
    if StartsWithIgnoringCase(text, term) then true
    else if tags.None? || |tags.value| == 0 then false
    else
      var possible := SameText(tags.value, text);
      if possible == [] then false
      else
        assert possible[0] in possible;
        match SearchId(possible[0])
        case None => false
        case Some(v) => StartsWithIgnoringCase(v, term)
  }

  /** Wherever the code as written does not throw, the total matcher gives the same answer. */
  lemma MatcherAgreesWithAsWritten(term: string, text: string, tags: Option<seq<Item>>)
    ensures MatcherAsWritten(term, text, tags).Returns? ==>
              Matcher(term, text, tags) == MatcherAsWritten(term, text, tags).value
    ensures MatcherAsWritten(term, text, tags).Throws? <==>
              !StartsWithIgnoringCase(text, term) && tags.Some? && |tags.value| > 0 &&
              (SameText(tags.value, text) == [] || SearchId(SameText(tags.value, text)[0]).None?)
  {
  }

  // ---------------------------------------------------------------- init_selection

  /**
   * `$select.val().split(options.regexSplit)`: `regexSplit` (`/(?:[,])/`) is
   * only defined for a `[multiple]` element; `split(undefined)` keeps the
   * whole value as the one element.
   */
  function CurrentValues(isMultiple: bool, val: string): (values: seq<string>)
    ensures isMultiple ==> Join(values, ',') == val && forall v :: v in values ==> ',' !in v
    ensures !isMultiple ==> values == [val]
  {
    if isMultiple then
      JoinSplit(val, ',');
      SplitPiecesLackSeparator(val, ',');
      Split(val, ',')
    else [val]
  }

  /** What `find_item({ id: v, text: v }, data)` finds for one current value, as a list of zero or one item. */
  function LocateOne(v: string, data: Option<seq<Item>>): seq<Item>
  {
    match FindItem(Description(v, v), data)
    case Some(x) => [x]
    case None => []
  }

  /** The `selected_items` collected for a list of values, in the order of the values. */
  function Located(values: seq<string>, data: Option<seq<Item>>): seq<Item>
  {
    if values == [] then []
    else Located(values[..|values| - 1], data) + LocateOne(values[|values| - 1], data)
  }

  /** Every collected item is located for one of the values: it is in the data and matches that value. */
  lemma {:induction false} LocatedSpec(values: seq<string>, data: Option<seq<Item>>)
    ensures |Located(values, data)| <= |values|
    ensures data.None? ==> Located(values, data) == []
    ensures forall x :: x in Located(values, data) ==>
              data.Some? && x in Preorder(data.value) &&
              exists v :: v in values && Matches(Description(v, v), x)
  {
    if values != [] {
      var init, last := values[..|values| - 1], values[|values| - 1];
      LocatedSpec(init, data);
      FindItemSpec(Description(last, last), data);
      forall x | x in Located(values, data)
        ensures data.Some? && x in Preorder(data.value) &&
                exists v :: v in values && Matches(Description(v, v), x)
      {
        if x in Located(init, data) {
          var v :| v in init && Matches(Description(v, v), x);
          assert v in values;
        } else {
          assert last in values;
        }
      }
    }
  }

  /** The argument passed to `make_selection`, or that it is not called. */
  datatype Selection = NoSelection | SelectOne(item: Item) | SelectMany(items: seq<Item>)

  /**
   * `init_selection($select, make_selection)`: `make_selection` is called at
   * most once — with every located item, in the order of the split value,
   * for a `[multiple]` element; with the first located item otherwise; not at
   * all when nothing was located.
   */
  method InitSelection(isMultiple: bool, val: string, data: Option<seq<Item>>) returns (sel: Selection)
    ensures var found := Located(CurrentValues(isMultiple, val), data);
            (sel == NoSelection <==> found == []) &&
            (found != [] && isMultiple ==> sel == SelectMany(found)) &&
            (found != [] && !isMultiple ==> sel == SelectOne(found[0]))
  {
    var values := CurrentValues(isMultiple, val);
    var selected: seq<Item> := [];
    var i := 0;
    while i < |values|
      invariant 0 <= i <= |values|
      invariant selected == Located(values[..i], data)
    {
      var located := FindItem(Description(values[i], values[i]), data);
      if located.Some? {
        selected := selected + [located.value];
      }
      assert values[..i + 1][..i] == values[..i];
      i := i + 1;
    }
    assert values[..i] == values;
    if |selected| > 0 && isMultiple {
      sel := SelectMany(selected);
    } else if |selected| > 0 {
      sel := SelectOne(selected[0]);
    } else {
      sel := NoSelection;
    }
  }

  // ---------------------------------------------------------------- separators and patterns

  /** The `data-separator` value as jQuery holds it: one token or an array of tokens. */
  datatype SeparatorData = SeparatorToken(token: string) | SeparatorTokens(tokens: seq<string>)

  /**
   * `args.tokenSeparators` for a `[multiple]` element. `$select.is('data-separator')`
   * tests the element's tag name, not an attribute, so unless the element is a
   * `<data-separator>` element the stored separator is replaced by `','`.
   */
  function TokenSeparators(tagName: string, stored: SeparatorData): (tokens: seq<string>)
    ensures tagName != "data-separator" ==> tokens == [","]
  {
    var separator := if tagName != "data-separator" then SeparatorToken(",") else stored;
    match separator
    case SeparatorTokens(list) => list
    case SeparatorToken(token) => [token]
  }

  /** The string pieces pushed for each token: `'[^' + token + ']+'` and `'[' + token + ']'`. */
  function NegatedRun(token: string): string { "[^" + token + "]+" }
  function CharClass(token: string): string { "[" + token + "]" }

  /** `elements.join('')`. */
  function Concat(elements: seq<string>): string
  {
    if elements == [] then "" else Concat(elements[..|elements| - 1]) + elements[|elements| - 1]
  }

  lemma {:induction false} ConcatAppend(a: seq<string>, b: seq<string>)
    ensures Concat(a + b) == Concat(a) + Concat(b)
    decreases |b|
  {
    if b == [] {
      assert a + b == a;
    } else {
      var b' := b[..|b| - 1];
      ConcatAppend(a, b');
      assert (a + b)[..|a + b| - 1] == a + b';
    }
  }

  /** The token pattern's source text for a list of separator tokens. */
  function SeparatorPattern(tokens: seq<string>): string
  {
    "^(" + Concat(seq(|tokens|, k requires 0 <= k < |tokens| => NegatedRun(tokens[k]))) + ")$"
  }

  /** The split pattern's source text for a list of separator tokens. */
  function SplitPattern(tokens: seq<string>): string
  {
    "(?:" + Concat(seq(|tokens|, k requires 0 <= k < |tokens| => CharClass(tokens[k]))) + ")"
  }

  /**
   * The `$.each(args.tokenSeparators, …)` block of `element`: grows the two
   * element arrays one token at a time and joins them.
   */
  method BuildPatterns(tokens: seq<string>) returns (separatorString: string, splitString: string)
    ensures separatorString == SeparatorPattern(tokens)
    ensures splitString == SplitPattern(tokens)
  {
    var separatorElements := ["^("];
    var splitElements := ["(?:"];
    var i := 0;
    while i < |tokens|
      invariant 0 <= i <= |tokens|
      invariant separatorElements == ["^("] + seq(i, k requires 0 <= k < i => NegatedRun(tokens[k]))
      invariant splitElements == ["(?:"] + seq(i, k requires 0 <= k < i => CharClass(tokens[k]))
    {
      separatorElements := separatorElements + [NegatedRun(tokens[i])];
      splitElements := splitElements + [CharClass(tokens[i])];
      i := i + 1;
    }
    var runs := seq(|tokens|, k requires 0 <= k < |tokens| => NegatedRun(tokens[k]));
    var classes := seq(|tokens|, k requires 0 <= k < |tokens| => CharClass(tokens[k]));
    ConcatAppend(["^("], runs);
    ConcatAppend(["^("] + runs, [")$"]);
    ConcatAppend(["(?:"], classes);
    ConcatAppend(["(?:"] + classes, [")"]);
    assert Concat(["^("]) == "^(" && Concat([")$"]) == ")$";
    assert Concat(["(?:"]) == "(?:" && Concat([")"]) == ")";
    separatorString := Concat(separatorElements + [")$"]);
    splitString := Concat(splitElements + [")"]);
  }

  /** For every ordinary element the patterns are `^([^,]+)$` and `(?:[,])`. */
  lemma CommaPatterns(tagName: string, stored: SeparatorData)
    requires tagName != "data-separator"
    ensures SeparatorPattern(TokenSeparators(tagName, stored)) == "^([^,]+)$"
    ensures SplitPattern(TokenSeparators(tagName, stored)) == "(?:[,])"
  {
    var tokens := TokenSeparators(tagName, stored);
    assert tokens == [","];
    var runs := seq(|tokens|, k requires 0 <= k < |tokens| => NegatedRun(tokens[k]));
    var classes := seq(|tokens|, k requires 0 <= k < |tokens| => CharClass(tokens[k]));
    assert NegatedRun(",") == "[^,]+";
    assert CharClass(",") == "[,]";
    assert runs == ["[^,]+"];
    assert classes == ["[,]"];
    assert Concat(runs) == "" + "[^,]+";
    assert Concat(classes) == "" + "[,]";
  }

  // ---------------------------------------------------------------- free-form choices

  /**
   * `term.match(args.regexToken)`. For a `[multiple]` element the pattern is
   * `^([^,]+)$`: one or more characters, none of them a comma. Otherwise
   * `regexToken` is undefined and `match(undefined)` matches every string.
   */
  predicate TokenMatches(isMultiple: bool, term: string)
  {
    isMultiple ==> |term| >= 1 && forall i :: 0 <= i < |term| ==> term[i] != ','
  }

  /** `term.match(/\d+/)`: the term contains an ASCII digit. */
  predicate HasDigit(term: string)
  {
    exists i :: 0 <= i < |term| && '0' <= term[i] <= '9'
  }

  /** A choice created from the search term. */
  datatype Choice = Choice(id: string, text: string, isNew: bool)

  /**
   * `freefrom_create_search_choice(term)`: accepts the term when it matches
   * the token pattern and, for a `[data-int]` element, contains a digit; the
   * choice is `{ id: term, text: term, new: true }`, its text rendered by the
   * `data-create-choice-template` template when there is one.
   */
  function FreeformChoice(term: string, isMultiple: bool, dataInt: bool,
                          template: Option<string -> string>): (r: Option<Choice>)
    ensures r.Some? <==> TokenMatches(isMultiple, term) && (dataInt ==> HasDigit(term))
    ensures r.Some? ==> r.value.id == term && r.value.isNew
    ensures r.Some? && template.None? ==> r.value.text == term
    ensures r.Some? && template.Some? ==> r.value.text == template.value(term)
  {
    if TokenMatches(isMultiple, term) && (!dataInt || HasDigit(term)) then
      Some(Choice(term, if template.Some? then template.value(term) else term, true))
    else None
  }

  /**
   * With the comma separator a free-form term on a `[multiple]` element is
   * accepted exactly when it is non-empty, has no comma and, with
   * `data-int`, contains a digit.
   */
  lemma FreeformOnMultiple(term: string, dataInt: bool)
    ensures FreeformChoice(term, true, dataInt, None).Some? <==>
              term != "" && ',' !in term && (dataInt ==> HasDigit(term))
    ensures FreeformChoice(term, true, dataInt, None).Some? ==>
              FreeformChoice(term, true, dataInt, None).value == Choice(term, term, true)
  {
    assert TokenMatches(true, term) <==> term != "" && ',' !in term by {
      if ',' in term {
        var i :| 0 <= i < |term| && term[i] == ',';
      }
    }
  }

  /** The `createSearchChoice` installed for `[data-tags]`: `{ id: term, text: term }` when the term matches the token pattern. */
  function TagsChoice(term: string, isMultiple: bool): (r: Option<Choice>)
    ensures r.Some? <==> TokenMatches(isMultiple, term)
    ensures r.Some? ==> r.value.id == term && r.value.text == term && !r.value.isNew
  {
    if TokenMatches(isMultiple, term) then Some(Choice(term, term, false)) else None
  }

  // ---------------------------------------------------------------- ajax.results

  /** `response.data` when it is a plain object: its results, pagination flag and message. */
  datatype Payload = Payload(results: Option<seq<Item>>, more: Option<bool>, message: Option<string>)

  datatype ResponseData = DataNotPlainObject | DataObject(payload: Payload)

  /** An AJAX response; `success` holds the truthiness of a defined `success` property. */
  datatype Response = ResponseNotPlainObject | ResponseObject(success: Option<bool>, data: ResponseData)

  /** What `results` returns, and what it logs with `console.error` when it rejects the response. */
  datatype Parsed = Parsed(payload: Payload, logged: Option<string>)

  const EmptyResults := Payload(Some([]), None, None)
  const MalformedObject := "We received a malformed Object, could not complete the Select2 Search."
  const MalformedResults := "We received a malformed results array, could not complete the Select2 Search."
  const SearchFailed := "The Select2 search failed in some way... Verify the source."

  predicate WellFormed(response: Response)
  {
    response.ResponseObject? && response.success.Some? &&
    response.data.DataObject? && response.data.payload.results.Some?
  }

  /**
   * `ajax.results(response)`: `response.data` unchanged when the response is
   * a plain object with `success`, its `data` a plain object with `results`,
   * and `success` truthy; `{ results: [] }` in each of the three other cases,
   * with the message that case logs.
   */
  function ParseResults(response: Response): (r: Parsed)
    ensures r.logged.None? <==> WellFormed(response) && response.success.value
    ensures r.logged.None? ==> r.payload == response.data.payload
    ensures r.logged.Some? ==> r.payload == EmptyResults
    ensures !WellFormed(response) ==> r.logged == Some(if response.ResponseObject? && response.success.Some?
                                                       then MalformedResults else MalformedObject)
    ensures WellFormed(response) && !response.success.value ==>
              r.logged == Some(if response.data.payload.message.Some? then response.data.payload.message.value
                               else SearchFailed)
  {
    if response.ResponseNotPlainObject? || response.success.None? then
      Parsed(EmptyResults, Some(MalformedObject))
    else if response.data.DataNotPlainObject? || response.data.payload.results.None? then
      Parsed(EmptyResults, Some(MalformedResults))
    else if !response.success.value then
      Parsed(EmptyResults, Some(if response.data.payload.message.Some? then response.data.payload.message.value
                                else SearchFailed))
    else
      Parsed(response.data.payload, None)
  }

  // ---------------------------------------------------------------- action_change

  /** The element's `value` data: an array of selected values, or anything else. */
  datatype Stored<V> = NotAnArray | List(items: seq<V>)

  /** A Select2 `change` event: an added item, a removed item, or neither. */
  datatype ChangeEvent<V> = Added(added: V) | Removed(removed: V) | NoItem

  /** `_.without(list, x)`: the list with every element equal to `x` dropped. */
  function Without<V(==)>(s: seq<V>, x: V): seq<V>
  {
    if s == [] then []
    else if s[0] == x then Without(s[1..], x)
    else [s[0]] + Without(s[1..], x)
  }

  /** `Without` drops exactly the occurrences of `x` and keeps every other element as often as before. */
  lemma {:induction false} WithoutMultiset<V>(s: seq<V>, x: V)
    ensures multiset(Without(s, x)) == multiset(s)[x := 0]
  {
    if s != [] {
      WithoutMultiset(s[1..], x);
      assert s == [s[0]] + s[1..];
      assert multiset(s) == multiset([s[0]]) + multiset(s[1..]);
    }
  }

  /** Dropping a value that was just appended to a list without it gives the list back. */
  lemma {:induction false} WithoutAppended<V>(s: seq<V>, x: V)
    requires x !in s
    ensures Without(s + [x], x) == s
  {
    if s != [] {
      assert (s + [x])[1..] == s[1..] + [x];
      WithoutAppended(s[1..], x);
      assert s == [s[0]] + s[1..];
    } else {
      assert [] + [x] == [x];
    }
  }

  /** The list `action_change` stores for an event. */
  function Changed<V(==)>(stored: Stored<V>, event: ChangeEvent<V>): seq<V>
  {
    match event
    case Added(x) => if stored.List? then stored.items + [x] else [x]
    case Removed(x) => if stored.List? then Without(stored.items, x) else []
    case NoItem => if stored.List? then stored.items else []
  }

  /**
   * A dropdown element as `action_change` sees it: whether it is
   * `[multiple]` and has `[data-source]`, its `value` data and its
   * `data-value` attribute.
   */
  class DropdownElement<V(==)> {
    const multiple: bool
    const hasSource: bool
    var value: Stored<V>
    var valueAttribute: string

    constructor(multiple: bool, hasSource: bool, value: Stored<V>, valueAttribute: string)
      ensures this.multiple == multiple && this.hasSource == hasSource
      ensures this.value == value && this.valueAttribute == valueAttribute
    {
      this.multiple := multiple;
      this.hasSource := hasSource;
      this.value := value;
      this.valueAttribute := valueAttribute;
    }

    /**
     * `action_change(event)`: nothing happens unless the element is both
     * `[multiple]` and `[data-source]`; then an added item is appended to the
     * stored array (or becomes a one-element array), a removal drops every
     * equal element (or yields `[]` when no array was stored), and the
     * `data-value` attribute becomes `stringify` (JSON.stringify) of the new list.
     */
    method ActionChange(event: ChangeEvent<V>, stringify: seq<V> -> string)
      modifies this
      ensures !(multiple && hasSource) ==> value == old(value) && valueAttribute == old(valueAttribute)
      ensures multiple && hasSource ==>
                value == List(Changed(old(value), event)) && valueAttribute == stringify(value.items)
    {
      if !multiple {
        return;
      }
      if !hasSource {
        return;
      }
      var data: seq<V>;
      match event {
        case Added(x) =>
          if value.List? {
            data := value.items + [x];
          } else {
            data := [x];
          }
        case Removed(x) =>
          if value.List? {
            data := Without(value.items, x);
          } else {
            data := [];
          }
        case NoItem =>
          if value.List? {
            data := value.items;
          } else {
            data := [];
          }
      }
      value := List(data);
      valueAttribute := stringify(data);
    }
  }

  /**
   * An addition is appended at the end of the stored array, even when an
   * equal item is already there, or becomes a one-element array when no array
   * was stored; removing a new item again gives what a change without an
   * item would store.
   */
  lemma {:induction false} AddThenRemove<V>(stored: Stored<V>, x: V)
    ensures Changed(stored, Added(x)) == (if stored.List? then stored.items + [x] else [x])
    ensures (stored.NotAnArray? || x !in stored.items) ==>
              Changed(List(Changed(stored, Added(x))), Removed(x)) == Changed(stored, NoItem)
  {
    if stored.List? {
      if x !in stored.items {
        WithoutAppended(stored.items, x);
      }
    } else {
      assert Without([x], x) == [] by {
        assert [x][1..] == [];
      }
    }
  }

  /** A removal leaves no copy of the removed value and keeps every other value as often as before. */
  lemma RemovalDropsEveryCopy<V>(stored: Stored<V>, x: V)
    ensures x !in Changed(stored, Removed(x))
    ensures stored.NotAnArray? ==> Changed(stored, Removed(x)) == []
    ensures stored.List? ==> multiset(Changed(stored, Removed(x))) == multiset(stored.items)[x := 0]
  {
    if stored.List? {
      WithoutMultiset(stored.items, x);
      assert multiset(Changed(stored, Removed(x)))[x] == 0;
    }
  }
}

=== FILE: RelatedPosts.dfy ===
/**
 * Related-posts selection (`TribeRelatedPosts::getPosts` and
 * `has_related_posts` in vendor/tribe-related-posts-events/tribe-related-posts.php).
 *
 * The WordPress calls become parameters: the current post's ID and tags,
 * and two query oracles, each standing for `apply_filters` on its hook
 * followed by `get_posts`.
 */
module RelatedPosts {
  import opened Wrappers
  import opened Text

  datatype Post = Post(id: int)

  /** A tag of the current post (`get_the_tags`); the selection uses its slug. */
  datatype Tag = Tag(slug: string)

  /**
   * The `$tags` argument: `false` (the default of every public entry point
   * except `getPosts` itself, whose default `array()` is the empty list), a
   * comma-separated string or a list.
   */
  datatype TagsArg = NoTags | TagString(s: string) | TagList(tags: seq<string>)

  /**
   * The local `$tags` after line 55: an array, or still `false`. Under PHP 7,
   * which this model follows, `count(false)` is 1, `$tags[] = …` turns
   * `false` into an array, and `join(',', false)` is null.
   */
  datatype Tags = TagArray(list: seq<string>) | TagFalse

  /** The `get_posts` argument array; `tag` is absent from the top-up query. */
  datatype QueryArgs = QueryArgs(tag: Option<string>, numberposts: int, exclude: seq<int>,
                                 postType: string, orderby: string)

  /** `explode(',', $tags)` for a string; a list or `false` as given. */
  function InitialTags(arg: TagsArg): Tags
  {
    match arg
    case NoTags => TagFalse
    case TagString(s) => TagArray(Split(s, ','))
    case TagList(tags) => TagArray(tags)
  }

  /** The test `count($tags) == 0 || $tags == false` of line 60: the empty array or `false`. */
  predicate Missing(tags: Tags)
  {
    tags == TagArray([]) || tags == TagFalse
  }

  /** The elements `$tags[] = …` appends to: none for `false`. */
  function ListOf(tags: Tags): seq<string>
  {
    if tags.TagArray? then tags.list else []
  }

  /** `$tags[] = $slug`: appends, turning `false` into a one-element array. */
  function Append(tags: Tags, slug: string): (r: Tags)
    ensures r.TagArray? && r.list == ListOf(tags) + [slug]
  {
    TagArray(ListOf(tags) + [slug])
  }

  /** `$tags` after appending every slug in turn: unchanged when there are none. */
  function AppendSlugs(tags: Tags, slugs: seq<string>): Tags
  {
    if slugs == [] then tags else TagArray(ListOf(tags) + slugs)
  }

  /** `join(',', $tags)`: the joined string for an array, null for `false`. */
  function TagFilter(tags: Tags): Option<string>
  {
    if tags.TagArray? then Some(Join(tags.list, ',')) else None
  }

  function Slugs(tags: seq<Tag>): (slugs: seq<string>)
    ensures |slugs| == |tags| && forall i :: 0 <= i < |tags| ==> slugs[i] == tags[i].slug
  {
    seq(|tags|, i requires 0 <= i < |tags| => tags[i].slug)
  }

  function Ids(posts: seq<Post>): (ids: seq<int>)
    ensures |ids| == |posts| && forall i :: 0 <= i < |posts| ==> ids[i] == posts[i].id
  {
    seq(|posts|, i requires 0 <= i < |posts| => posts[i].id)
  }

  /** The tags the queries use: the argument, or the current post's tag slugs when the argument is missing. */
  function EffectiveTags(arg: TagsArg, currentTags: Option<seq<Tag>>): Tags
  {
    var tags := InitialTags(arg);
    if Missing(tags) && currentTags.Some? then AppendSlugs(tags, Slugs(currentTags.value)) else tags
  }

  /**
   * The first query: the joined tags (no tag filter when they are still
   * `false`), `count` posts, the current post excluded, in random order.
   */
  function FirstArgs(tags: Tags, count: int, postId: int, postType: string): QueryArgs
  {
    QueryArgs(TagFilter(tags), count, [postId], postType, "rand")
  }

  /** The top-up query: the missing number of posts, excluding the current post and every post already found. */
  function ExtraArgs(count: int, postId: int, found: seq<Post>, postType: string): QueryArgs
  {
    QueryArgs(None, count - |found|, [postId] + Ids(found), postType, "rand")
  }

  /** Whether the top-up query runs. */
  predicate NeedsTopUp(onlyRelated: bool, count: int, found: seq<Post>)
  {
    !onlyRelated && |found| < count
  }

  /**
   * What `getPosts` returns (and caches) for its arguments and the two query
   * oracles: nothing when the tags are an empty array (`count($tags) == 0`;
   * `false` counts 1), otherwise the first query's posts, topped up only when
   * not just related posts were asked for.
   */
  function RelatedSelection(arg: TagsArg, count: int, onlyRelated: bool, postType: string,
                            postId: int, currentTags: Option<seq<Tag>>,
                            related: QueryArgs -> seq<Post>, extra: QueryArgs -> seq<Post>): (r: seq<Post>)
    ensures EffectiveTags(arg, currentTags) == TagArray([]) ==> r == []
    ensures EffectiveTags(arg, currentTags) != TagArray([]) ==>
              related(FirstArgs(EffectiveTags(arg, currentTags), count, postId, postType)) <= r
    ensures onlyRelated && EffectiveTags(arg, currentTags) != TagArray([]) ==>
              r == related(FirstArgs(EffectiveTags(arg, currentTags), count, postId, postType))
  {
    var tags := EffectiveTags(arg, currentTags);
    if tags == TagArray([]) then []
    else
      var found := related(FirstArgs(tags, count, postId, postType));
      if NeedsTopUp(onlyRelated, count, found)
      then found + extra(ExtraArgs(count, postId, found, postType))
      else found
  }

  /**
   * A string of tags is split on commas into a non-empty array, so the
   * current post's tags are never consulted, and the first query's `tag`
   * argument joins them again: it is the string as given.
   */
  lemma FirstQueryKeepsTagString(s: string, count: int, postId: int, postType: string)
    ensures forall currentTags :: EffectiveTags(TagString(s), currentTags) == TagArray(Split(s, ','))
    ensures FirstArgs(InitialTags(TagString(s)), count, postId, postType).tag == Some(s)
  {
    JoinSplit(s, ',');
  }

  /**
   * The selection: nothing when no tag is known; otherwise the first query's
   * posts, followed by the top-up posts exactly when fewer than `count` came
   * back and not only related posts were asked for, each part in its own
   * order. The top-up query asks for the missing number of posts and
   * excludes the current post and every post of the first result.
   */
  lemma RelatedSelectionSpec(arg: TagsArg, count: int, onlyRelated: bool, postType: string,
                             postId: int, currentTags: Option<seq<Tag>>,
                             related: QueryArgs -> seq<Post>, extra: QueryArgs -> seq<Post>)
    ensures var tags := EffectiveTags(arg, currentTags);
            var r := RelatedSelection(arg, count, onlyRelated, postType, postId, currentTags, related, extra);
            (tags == TagArray([]) ==> r == []) &&
            (tags != TagArray([]) ==>
              var first := FirstArgs(tags, count, postId, postType);
              var found := related(first);
              first.numberposts == count && first.exclude == [postId] &&
              found <= r &&
              (NeedsTopUp(onlyRelated, count, found) ==>
                var more := ExtraArgs(count, postId, found, postType);
                r[|found|..] == extra(more) && more.numberposts > 0 && postId in more.exclude &&
                forall p :: p in found ==> p.id in more.exclude) &&
              (!NeedsTopUp(onlyRelated, count, found) ==> r == found))
  {
    var tags := EffectiveTags(arg, currentTags);
    if tags != TagArray([]) {
      var found := related(FirstArgs(tags, count, postId, postType));
      var more := ExtraArgs(count, postId, found, postType);
      forall p | p in found ensures p.id in more.exclude {
        var i :| 0 <= i < |found| && found[i] == p;
        assert more.exclude[i + 1] == p.id;
      }
    }
  }

  /**
   * When the tags are missing (an empty list or `false`) and the current
   * post has tags, their slugs are used in their order. An empty list on a
   * post without tags (or whose tags are not a list) gives the empty
   * selection.
   */
  lemma EmptyTagsFallBack(arg: TagsArg, count: int, onlyRelated: bool, postType: string,
                          postId: int, currentTags: Option<seq<Tag>>,
                          related: QueryArgs -> seq<Post>, extra: QueryArgs -> seq<Post>)
    requires Missing(InitialTags(arg))
    ensures currentTags.Some? && currentTags.value != [] ==>
              EffectiveTags(arg, currentTags) == TagArray(Slugs(currentTags.value))
    ensures InitialTags(arg) == TagArray([]) && (currentTags.None? || currentTags.value == []) ==>
              RelatedSelection(arg, count, onlyRelated, postType, postId, currentTags, related, extra) == []
  {
    if currentTags.Some? && currentTags.value != [] {
      assert Slugs(currentTags.value) != [];
      assert [] + Slugs(currentTags.value) == Slugs(currentTags.value);
    }
  }

  /**
   * With `$tags` left at its default `false` on a post without tags, the
   * tags stay `false`, which counts as one tag: the first query runs with no
   * tag filter at all, so the selection starts with unrelated posts.
   */
  lemma FalseTagsQueryUnfiltered(count: int, onlyRelated: bool, postType: string,
                                 postId: int, currentTags: Option<seq<Tag>>,
                                 related: QueryArgs -> seq<Post>, extra: QueryArgs -> seq<Post>)
    requires currentTags.None? || currentTags.value == []
    ensures EffectiveTags(NoTags, currentTags) == TagFalse
    ensures var first := FirstArgs(EffectiveTags(NoTags, currentTags), count, postId, postType);
            first == QueryArgs(None, count, [postId], postType, "rand") &&
            related(first) <= RelatedSelection(NoTags, count, onlyRelated, postType, postId, currentTags, related, extra)
  {
    if currentTags.Some? {
      assert Slugs(currentTags.value) == [];
    }
  }

  /** The `foreach ($posttags …) $tags[] = $v->slug` loop. */
  method CollectSlugs(tags: Tags, postTags: seq<Tag>) returns (result: Tags)
    ensures result == AppendSlugs(tags, Slugs(postTags))
  {
    result := tags;
    var i := 0;
    while i < |postTags|
      invariant 0 <= i <= |postTags|
      invariant result == AppendSlugs(tags, Slugs(postTags[..i]))
    {
      assert Slugs(postTags[..i + 1]) == Slugs(postTags[..i]) + [postTags[i].slug];
      result := Append(result, postTags[i].slug);
      i := i + 1;
    }
    assert postTags[..i] == postTags;
  }

  /** The `foreach ($posts …) $exclude[] = $post->ID` loop, starting from the current post's ID. */
  method ExcludeList(postId: int, found: seq<Post>) returns (exclude: seq<int>)
    ensures exclude == [postId] + Ids(found)
  {
    exclude := [postId];
    var i := 0;
    while i < |found|
      invariant 0 <= i <= |found|
      invariant exclude == [postId] + Ids(found[..i])
    {
      exclude := exclude + [found[i].id];
      i := i + 1;
    }
    assert found[..i] == found;
  }

  /** The plugin's static per-post cache. */
  class RelatedPostsCache {
    var cache: map<int, seq<Post>>

    constructor()
      ensures cache == map[]
    {
      cache := map[];
    }

    /**
     * `getPosts($tags, $count, $blog, $only_display_related, $post_type)`.
     * The cache is never read (its guard ends in `true == false`), so every
     * call recomputes; `cache[post_id]` is overwritten with exactly the value
     * returned.
     */
    method GetPosts(arg: TagsArg, count: int, onlyRelated: bool, postType: string,
                    postId: int, currentTags: Option<seq<Tag>>,
                    related: QueryArgs -> seq<Post>, extra: QueryArgs -> seq<Post>)
      returns (posts: seq<Post>)
      modifies this
      ensures posts == RelatedSelection(arg, count, onlyRelated, postType, postId, currentTags, related, extra)
      ensures cache == old(cache)[postId := posts]
    {
      var tags := InitialTags(arg);
      if tags == TagArray([]) || tags == TagFalse {
        if currentTags.Some? {
          tags := CollectSlugs(tags, currentTags.value);
        }
      }
      if tags != TagArray([]) {
        var exclude := [postId];
        var args := QueryArgs(TagFilter(tags), count, exclude, postType, "rand");
        posts := related(args);
        if !onlyRelated && |posts| < count {
          exclude := ExcludeList(postId, posts);
          args := QueryArgs(None, count - |posts|, exclude, postType, "rand");
          posts := posts + extra(args);
        }
        cache := cache[postId := posts];
      } else {
        cache := cache[postId := []];
        posts := [];
      }
    }

    /** `has_related_posts(…)`: whether `get_related_posts` (that is, `getPosts`) returns a non-empty list. */
    method HasRelatedPosts(arg: TagsArg, count: int, onlyRelated: bool, postType: string,
                           postId: int, currentTags: Option<seq<Tag>>,
                           related: QueryArgs -> seq<Post>, extra: QueryArgs -> seq<Post>)
      returns (has: bool)
      modifies this
      ensures var selection := RelatedSelection(arg, count, onlyRelated, postType, postId, currentTags, related, extra);
              has == (|selection| > 0) && cache == old(cache)[postId := selection]
    {
      var posts := GetPosts(arg, count, onlyRelated, postType, postId, currentTags, related, extra);
      has := |posts| > 0;
    }
  }
}

=== FILE: Text.dfy ===
/**
 * String helpers shared by the models: case-insensitive prefix tests and
 * splitting/joining on a one-character separator (JavaScript `split`,
 * PHP `explode` and `join`).
 */
module Text {

  /** ASCII upper-casing of one character, the part of `toUpperCase` the model keeps. */
  function Upper(c: char): (u: char)
    ensures 'a' <= c <= 'z' ==> u as int == c as int - 32
    ensures !('a' <= c <= 'z') ==> u == c
  {
    if 'a' <= c <= 'z' then (c as int - 32) as char else c
  }

  function UpperString(s: string): (u: string)
    ensures |u| == |s|
    ensures forall i :: 0 <= i < |s| ==> u[i] == Upper(s[i])
  {
    seq(|s|, i requires 0 <= i < |s| => Upper(s[i]))
  }

  /** `text.toUpperCase().indexOf(term.toUpperCase()) == 0`: the search string occurs at position 0. */
  predicate StartsWithIgnoringCase(text: string, term: string)
  {
    UpperString(term) <= UpperString(text)
  }

  /** Upper-casing is why the test ignores case: changing the case of letters never changes the verdict. */
  lemma StartsWithIgnoringCaseIsCaseBlind(text: string, term: string)
    ensures StartsWithIgnoringCase(UpperString(text), term) == StartsWithIgnoringCase(text, term)
    ensures StartsWithIgnoringCase(text, UpperString(term)) == StartsWithIgnoringCase(text, term)
  {
    assert UpperString(UpperString(text)) == UpperString(text);
    assert UpperString(UpperString(term)) == UpperString(term);
  }

  /** An exact prefix is in particular a case-insensitive one. */
  lemma PrefixStartsWithIgnoringCase(text: string, term: string)
    requires term <= text
    ensures StartsWithIgnoringCase(text, term)
  {
    assert forall i :: 0 <= i < |term| ==> UpperString(term)[i] == UpperString(text)[i];
  }

  /**
   * Splitting on the separator `c`: the pieces between separators, always at
   * least one (`"".split(',')` and `explode(',', '')` both give `[""]`).
   */
  function Split(s: string, c: char): (parts: seq<string>)
    ensures |parts| >= 1
  {
    if |s| == 0 then [""]
    else
      var rest := Split(s[1..], c);
      if s[0] == c then [""] + rest
      else [[s[0]] + rest[0]] + rest[1..]
  }

  /** Joining with the separator `c` (`join(',', $parts)`); the empty list joins to `""`. */
  function Join(parts: seq<string>, c: char): string
  {
    if |parts| == 0 then ""
    else if |parts| == 1 then parts[0]
    else parts[0] + [c] + Join(parts[1..], c)
  }

  /** No piece produced by `Split` contains the separator. */
  lemma {:induction false} SplitPiecesLackSeparator(s: string, c: char)
    ensures forall p :: p in Split(s, c) ==> c !in p
  {
    if |s| > 0 {
      SplitPiecesLackSeparator(s[1..], c);
      var rest := Split(s[1..], c);
      if s[0] != c {
        assert rest[0] in rest;
        forall p | p in Split(s, c) ensures c !in p {
          if p != [s[0]] + rest[0] {
            assert p in rest[1..];
          }
        }
      }
    }
  }

  /** Prepending separator-free text to a string only extends its first piece. */
  lemma {:induction false} SplitAfterPlainText(a: string, t: string, c: char)
    requires c !in a
    ensures Split(a + t, c) == [a + Split(t, c)[0]] + Split(t, c)[1..]
  {
    if |a| > 0 {
      SplitAfterPlainText(a[1..], t, c);
      assert (a + t)[1..] == a[1..] + t;
      assert [a[0]] + (a[1..] + Split(t, c)[0]) == a + Split(t, c)[0];
    } else {
      assert a + t == t;
      assert a + Split(t, c)[0] == Split(t, c)[0];
      assert [Split(t, c)[0]] + Split(t, c)[1..] == Split(t, c);
    }
  }

  /** Joining the pieces again restores the split string. */
  lemma {:induction false} JoinSplit(s: string, c: char)
    ensures Join(Split(s, c), c) == s
  {
    if |s| > 0 {
      JoinSplit(s[1..], c);
      var rest := Split(s[1..], c);
      if s[0] == c {
        assert Split(s, c)[1..] == rest;
        assert s == [c] + s[1..];
      } else {
        JoinExtendsFirst([s[0]], rest[0], rest[1..], c);
        assert [rest[0]] + rest[1..] == rest;
        assert s == [s[0]] + s[1..];
      }
    }
  }

  lemma JoinExtendsFirst(x: string, y: string, tail: seq<string>, c: char)
    ensures Join([x + y] + tail, c) == x + Join([y] + tail, c)
  {
    if |tail| > 0 {
      assert ([x + y] + tail)[1..] == tail;
      assert ([y] + tail)[1..] == tail;
    }
  }

  /** Splitting a joined list gives the list back, as long as no element contains the separator. */
  lemma {:induction false} SplitJoin(parts: seq<string>, c: char)
    requires |parts| >= 1
    requires forall p :: p in parts ==> c !in p
    ensures Split(Join(parts, c), c) == parts
  {
    if |parts| == 1 {
      SplitAfterPlainText(parts[0], "", c);
      assert parts[0] + "" == parts[0];
    } else {
      SplitJoin(parts[1..], c);
      var tail := Join(parts[1..], c);
      assert parts[0] + [c] + tail == parts[0] + ([c] + tail);
      SplitAfterPlainText(parts[0], [c] + tail, c);
      assert ([c] + tail)[1..] == tail;
      assert parts[0] + "" == parts[0];
      assert [parts[0]] + parts[1..] == parts;
    }
  }
}

=== FILE: Views.dfy ===
/**
 * The view base class (src/Tribe/Views/Base_View.php): property merging with
 * default template names, the query/posts data kept in step, the registry of
 * vendor script handles, the `.min` file lookup and the memoised output.
 *
 * Host calls become parameters: the registered view definition, the global
 * `$wp_query`, `file_exists`, `SCRIPT_DEBUG`, `doing_ajax`, template lookup
 * and the output of including a template.
 */
module Views {
  import opened Wrappers

  /** A PHP value as it appears in the property array. */
  datatype Value = Null | Bool(b: bool) | Int(i: int) | Str(s: string) | List(items: seq<Value>)

  /** PHP's `empty()`: null, false, 0, "", "0" and the empty array. */
  predicate Empty(v: Value)
  {
    v == Null || v == Bool(false) || v == Int(0) || v == Str("") || v == Str("0") || v == List([])
  }

  /** A post; only its ID matters to the view. */
  datatype Post = Post(id: int)

  const DirectorySeparator := "/"
  const OuterTemplate := "outer_template"
  const InnerTemplate := "inner_template"

  // ---------------------------------------------------------------- set_properties / get_property

  /**
   * The property array `set_properties` leaves: `array_merge` of the current
   * properties, the view definition and the argument (later ones win, key by
   * key), then the outer template defaulted to the slug and the inner one to
   * `{slug}/content` when they are empty.
   */
  function PropertiesAfterSet(current: map<string, Value>, definition: map<string, Value>,
                              given: map<string, Value>, slug: string): map<string, Value>
  {
    var merged := current + definition + given;
    var withOuter := if OuterTemplate !in merged || Empty(merged[OuterTemplate])
                     then merged[OuterTemplate := Str(slug)] else merged;
    if InnerTemplate !in withOuter || Empty(withOuter[InnerTemplate])
    then withOuter[InnerTemplate := Str(slug + DirectorySeparator + "content")] else withOuter
  }

  /**
   * Every key set by any of the three sources is kept, with the value of the
   * latest source that sets it; the two template keys always end up
   * non-empty: the merged value when it was non-empty, otherwise the default.
   */
  lemma PropertiesAfterSetSpec(current: map<string, Value>, definition: map<string, Value>,
                               given: map<string, Value>, slug: string)
    ensures var r := PropertiesAfterSet(current, definition, given, slug);
            r.Keys == current.Keys + definition.Keys + given.Keys + {OuterTemplate, InnerTemplate} &&
            (forall k :: k in given && k != OuterTemplate && k != InnerTemplate ==> r[k] == given[k]) &&
            (forall k :: k in definition && k !in given && k != OuterTemplate && k != InnerTemplate ==>
                r[k] == definition[k]) &&
            (forall k :: (k in current && k !in definition && k !in given &&
                          k != OuterTemplate && k != InnerTemplate) ==> r[k] == current[k])
    ensures var r := PropertiesAfterSet(current, definition, given, slug);
            var merged := current + definition + given;
            (if OuterTemplate in merged && !Empty(merged[OuterTemplate])
             then r[OuterTemplate] == merged[OuterTemplate] else r[OuterTemplate] == Str(slug)) &&
            (if InnerTemplate in merged && !Empty(merged[InnerTemplate])
             then r[InnerTemplate] == merged[InnerTemplate]
             else r[InnerTemplate] == Str(slug + "/content"))
  {
  }

  // ---------------------------------------------------------------- the query object

  /** A `WP_Query`: the fields the view reads and writes. */
  class Query {
    var posts: seq<Post>
    var postCount: int
    var currentPost: int

    /** `new WP_Query`: no posts, count 0. */
    constructor()
      ensures posts == [] && postCount == 0 && currentPost == -1
    {
      posts, postCount, currentPost := [], 0, -1;
    }

    /** `rewind_posts()`: restart the loop. */
    method RewindPosts()
      modifies this
      ensures currentPost == -1 && posts == old(posts) && postCount == old(postCount)
    {
      currentPost := -1;
    }
  }

  // ---------------------------------------------------------------- the view

  /**
   * A view. `query` is `$this->data['query']` when that holds a `WP_Query`
   * (null when it is empty); `posts` is `$this->data['posts']` (None when unset).
   * `global` parameters stand for the global `$wp_query` (null when it is not a `WP_Query`;
   * a set global that is not a query is treated as absent here).
   */
  class BaseView {
    const slug: string
    var properties: map<string, Value>
    var query: Query?
    var posts: Option<seq<Post>>
    var generated: bool
    var output: string

    /** After construction and after every public call: a query is set and the posts are an array. */
    ghost predicate Valid()
      reads this
    {
      query != null && posts.Some?
    }

    /** `__construct($slug, $properties, $data)`: sets the properties, then the data (and through it the query). */
    constructor(slug: string, given: map<string, Value>, definition: map<string, Value>,
                dataQuery: Query?, dataPosts: Option<seq<Post>>, global: Query?)
      ensures Valid()
      ensures this.slug == slug && properties == PropertiesAfterSet(map[], definition, given, slug)
      ensures dataQuery != null ==> query == dataQuery
      ensures dataQuery == null && global != null ==> query == global
      ensures dataQuery == null && global == null ==> fresh(query)
      ensures posts == Some(query.posts)
      ensures !generated && output == ""
    {
      this.slug := slug;
      properties := map[];
      query := null;
      posts := None;
      generated := false;
      output := "";
      new;
      SetProperties(given, definition);
      SetData(dataQuery, dataPosts, global);
    }

    /** `set_properties($properties)` with the registered view definition for this slug. */
    method SetProperties(given: map<string, Value>, definition: map<string, Value>)
      modifies this
      ensures properties == PropertiesAfterSet(old(properties), definition, given, slug)
      ensures query == old(query) && posts == old(posts)
      ensures generated == old(generated) && output == old(output)
    {
      properties := PropertiesAfterSet(properties, definition, given, slug);
    }

    /**
     * `get_property($name)`: the stored value when the key is set (`isset`:
     * present and not null), else null; an unknown name reads as null.
     */
    function GetProperty(name: string): (r: Value)
      reads this
      ensures name in properties ==> r == properties[name]
      ensures name !in properties ==> r == Null
    {
      if name in properties && properties[name] != Null then properties[name] else Null
    }

    /**
     * `set_data($data)`: replaces the data and re-derives the query. A
     * `posts` entry in `$data` is always dropped: `set_query` resets the
     * posts from the query.
     */
    method SetData(dataQuery: Query?, dataPosts: Option<seq<Post>>, global: Query?)
      modifies this
      ensures Valid()
      ensures dataQuery != null ==> query == dataQuery
      ensures dataQuery == null && global != null ==> query == global
      ensures dataQuery == null && global == null ==> fresh(query)
      ensures posts == Some(query.posts) && GetPostCount() == |query.posts|
      ensures properties == old(properties) && generated == old(generated) && output == old(output)
    {
      query := dataQuery;
      posts := dataPosts;
      SetQuery(null, global);
    }

    /**
     * `set_query($query)`: uses the given query, else the stored one, else
     * the global `$wp_query`, else a blank `WP_Query`; then resets the posts
     * from the chosen query.
     */
    method SetQuery(given: Query?, global: Query?)
      modifies this
      decreases 2
      ensures Valid()
      ensures given != null ==> query == given
      ensures given == null && old(query) != null ==> query == old(query)
      ensures given == null && old(query) == null && global != null ==> query == global
      ensures given == null && old(query) == null && global == null ==> fresh(query)
      ensures posts == Some(query.posts) && GetPostCount() == |query.posts|
      ensures properties == old(properties) && generated == old(generated) && output == old(output)
    {
      if given != null {
        query := given;
      }
      if query != null {
        ResetPosts(global);
        return;
      }
      if global == null {
        query := new Query();
      } else {
        query := global;
      }
      ResetPosts(global);
    }

    /** `reset_posts()`: unsets the posts and lets `set_posts` take them from the query. */
    method ResetPosts(global: Query?)
      requires query != null
      modifies this
      decreases 1
      ensures Valid() && query == old(query) && posts == Some(query.posts)
      ensures GetPostCount() == |query.posts|
      ensures properties == old(properties) && generated == old(generated) && output == old(output)
    {
      posts := None;
      SetPosts(None, global);
    }

    /**
     * `set_posts($posts)`: makes sure a query is set; an explicit array is
     * stored and copied into the query's posts and post count; otherwise the
     * posts are taken from the query only when none are stored.
     */
    method SetPosts(given: Option<seq<Post>>, global: Query?)
      modifies this, if given.Some? then (if query != null then {query} else {global}) else {}
      decreases if query == null then 3 else 0
      ensures Valid()
      ensures old(query) != null ==> query == old(query)
      ensures old(query) == null && global != null ==> query == global
      ensures old(query) == null && global == null ==> fresh(query)
      ensures given.Some? ==> posts == given && query.posts == given.value && query.postCount == |given.value|
      ensures given.Some? ==> query.currentPost == -1
      ensures given.Some? ==> GetPostCount() == query.postCount
      ensures given.None? && old(query) != null ==>
                posts == (if old(posts).Some? then old(posts) else Some(query.posts))
      ensures given.None? && old(query) == null ==> posts == Some(query.posts)
      ensures given.None? && old(query) != null ==> query.posts == old(query.posts)
      ensures properties == old(properties) && generated == old(generated) && output == old(output)
    {
      if query == null {
        SetQuery(null, global);
      }
      if given.Some? {
        posts := given;
        UpdateQueryPostData();
      }
      if posts.None? {
        posts := Some(query.posts);
      }
    }

    /** `update_query_post_data()`: the query's posts and post count follow the stored posts. */
    method UpdateQueryPostData()
      requires Valid()
      modifies query
      ensures query.posts == posts.value && query.postCount == |posts.value| && query.currentPost == -1
    {
      query.posts := posts.value;
      query.postCount := |posts.value|;
      query.RewindPosts();
    }

    /** `get_posts()`: the stored posts, cast to an array (unset posts read as the empty array). */
    function GetPosts(): (r: seq<Post>)
      reads this
      ensures posts.Some? ==> r == posts.value
      ensures posts.None? ==> r == []
    {
      if posts.Some? then posts.value else []
    }

    /**
     * `get_post_count()`: the number of posts `get_posts` returns. The
     * setters tie it to the query: after `set_query`, `set_data` and
     * `reset_posts` it is the number of the query's posts, and after
     * `set_posts` with an explicit array it is the query's post count.
     */
    function GetPostCount(): (n: nat)
      reads this
      ensures n == |GetPosts()|
      ensures posts.None? ==> n == 0
    {
      |GetPosts()|
    }

    /**
     * `generate()`: locates the inner template during AJAX requests and the
     * outer one otherwise; when found, its rendered output is stored and the
     * view is marked generated.
     */
    method Generate(doingAjax: bool, locate: Value -> Option<string>, render: string -> string)
      modifies this
      ensures var template := locate(GetProperty(if doingAjax then InnerTemplate else OuterTemplate));
              if template.Some?
              then generated && output == render(template.value)
              else generated == old(generated) && output == old(output)
      ensures properties == old(properties) && query == old(query) && posts == old(posts)
    {
      var template := locate(GetProperty(if doingAjax then InnerTemplate else OuterTemplate));
      if template.None? {
        return;
      }
      output := render(template.value);
      generated := true;
    }

    /**
     * `get_output()`: generates only while nothing has been generated, so once
     * a template was found every later call returns the same stored output.
     */
    method GetOutput(doingAjax: bool, locate: Value -> Option<string>, render: string -> string)
      returns (result: string)
      modifies this
      ensures result == output
      ensures old(generated) ==> generated && output == old(output)
      ensures !old(generated) ==>
                var template := locate(GetProperty(if doingAjax then InnerTemplate else OuterTemplate));
                if template.Some? then generated && output == render(template.value)
                else !generated && output == old(output)
      ensures properties == old(properties) && query == old(query) && posts == old(posts)
    {
      if !generated {
        Generate(doingAjax, locate, render);
      }
      result := output;
    }
  }

  // ---------------------------------------------------------------- set_query as written

  /**
   * The query and posts entries of `$this->data`, as values, for the model of
   * `set_query` as written. A global of `None` stands for an empty global
   * `$wp_query` (null, false, '', 0 or the empty array): the only kind that
   * leaves `data['query']` empty for the test of `set_posts`.
   */
  datatype QueryState = QueryState(posts: seq<Post>, postCount: int)
  datatype ViewData = ViewData(query: Option<QueryState>, posts: Option<seq<Post>>)

  /** How a call ends: with the new data, or not at all within the given call depth. */
  datatype Run = Diverges | Finishes(data: ViewData)

  const BlankQuery := QueryState([], 0)

  /**
   * `set_query` exactly as written, with a bound on the call depth. When no
   * query is stored and the global is empty, the blank query of line 104 is
   * overwritten by the empty global at line 108. Whenever it returns, a
   * query is stored and the posts are that query's posts.
   */
  function SetQueryAsWritten(data: ViewData, given: Option<QueryState>, global: Option<QueryState>, fuel: nat): (r: Run)
    ensures r.Finishes? ==> r.data.query.Some? && r.data.posts == Some(r.data.query.value.posts)
    decreases fuel, 2
  {
    if fuel == 0 then Diverges
    else
      var data1 := if given.Some? then data.(query := given) else data;
      if data1.query.Some? then ResetPostsAsWritten(data1, global, fuel - 1)
      else
        var data2 := if global.None? then data1.(query := Some(BlankQuery)) else data1;
        var data3 := data2.(query := global);
        ResetPostsAsWritten(data3, global, fuel - 1)
  }

  /** `reset_posts` as written: whenever it returns, the posts are the stored query's posts. */
  function ResetPostsAsWritten(data: ViewData, global: Option<QueryState>, fuel: nat): (r: Run)
    ensures r.Finishes? ==> r.data.query.Some? && r.data.posts == Some(r.data.query.value.posts)
    decreases fuel, 4
  {
    SetPostsAsWritten(data.(posts := None), None, global, fuel)
  }

  /**
   * `set_posts` as written: whenever it returns, a query is stored and posts
   * are set; they are the query's posts unless stored posts were kept.
   */
  function SetPostsAsWritten(data: ViewData, given: Option<seq<Post>>, global: Option<QueryState>, fuel: nat): (r: Run)
    ensures r.Finishes? ==> r.data.query.Some? && r.data.posts.Some?
    ensures r.Finishes? && (given.Some? || data.posts.None? || data.query.None?) ==>
              r.data.posts == Some(r.data.query.value.posts)
    ensures r.Finishes? && given.None? && data.query.Some? && data.posts.Some? ==> r.data == data
    decreases fuel, 3
  {
    var run := if data.query.None? then SetQueryAsWritten(data, None, global, fuel) else Finishes(data);
    match run
    case Diverges => Diverges
    case Finishes(d) =>
      var d1 := if given.Some? && d.query.Some?
                then d.(posts := given, query := Some(QueryState(given.value, |given.value|)))
                else if given.Some? then d.(posts := given) else d;
      if d1.posts.None?
      then Finishes(d1.(posts := Some(if d1.query.Some? then d1.query.value.posts else [])))
      else Finishes(d1)
  }

  /**
   * With no query given or stored and an empty global `$wp_query` (null,
   * false, '', 0 or the empty array), `set_query` as written never returns: it calls itself again
   * through `reset_posts` and `set_posts` at every depth.
   */
  lemma {:induction false} SetQueryAsWrittenDiverges(data: ViewData, fuel: nat)
    requires data.query.None?
    ensures SetQueryAsWritten(data, None, None, fuel) == Diverges
    decreases fuel
  {
    if fuel > 0 {
      var data3 := data.(query := None);
      var reset := data3.(posts := None);
      SetQueryAsWrittenDiverges(reset, fuel - 1);
      assert SetPostsAsWritten(reset, None, None, fuel - 1) == Diverges;
    }
  }

  /**
   * Whenever a query is given or stored, or the global is not empty, `set_query` as written
   * returns after two nested calls, with the same query the corrected
   * `BaseView.SetQuery` chooses and the posts taken from it.
   */
  lemma SetQueryAsWrittenWithQuery(data: ViewData, given: Option<QueryState>, global: Option<QueryState>, fuel: nat)
    requires fuel >= 2
    requires given.Some? || data.query.Some? || global.Some?
    ensures var chosen := if given.Some? then given else if data.query.Some? then data.query else global;
            SetQueryAsWritten(data, given, global, fuel) == Finishes(ViewData(chosen, Some(chosen.value.posts)))
  {
    var data1 := if given.Some? then data.(query := given) else data;
    var data3 := if data1.query.Some? then data1 else data1.(query := global);
    assert SetQueryAsWritten(data, given, global, fuel) == ResetPostsAsWritten(data3, global, fuel - 1);
    assert ResetPostsAsWritten(data3, global, fuel - 1) == SetPostsAsWritten(data3.(posts := None), None, global, fuel - 1);
  }

  // ---------------------------------------------------------------- vendor scripts

  predicate NoDuplicates(s: seq<string>)
  {
    forall i, j :: 0 <= i < j < |s| ==> s[i] != s[j]
  }

  /** The registry after `add_vendor_script($handle)`. */
  function WithHandle(handles: seq<string>, handle: string): seq<string>
  {
    if handle in handles then handles else handles + [handle]
  }

  /**
   * Adding a handle is idempotent, keeps the registry free of duplicates,
   * appends a new handle at the end and never reorders the existing ones.
   */
  lemma WithHandleSpec(handles: seq<string>, handle: string)
    ensures WithHandle(WithHandle(handles, handle), handle) == WithHandle(handles, handle)
    ensures NoDuplicates(handles) ==> NoDuplicates(WithHandle(handles, handle))
    ensures handles <= WithHandle(handles, handle)
    ensures handle in WithHandle(handles, handle)
    ensures forall h :: h in WithHandle(handles, handle) <==> h in handles || h == handle
    ensures |WithHandle(handles, handle)| == if handle in handles then |handles| else |handles| + 1
  {
  }

  /** The static `$vendor_scripts` list, shared by every view. */
  class VendorScripts {
    var handles: seq<string>

    ghost predicate Valid()
      reads this
    {
      NoDuplicates(handles)
    }

    constructor()
      ensures Valid() && handles == []
    {
      handles := [];
    }

    /** `add_vendor_script($handle)`: appends the handle unless it is already registered. */
    method AddVendorScript(handle: string)
      requires Valid()
      modifies this
      ensures Valid()
      ensures handles == WithHandle(old(handles), handle)
    {
      if handle in handles {
        return;
      }
      handles := handles + [handle];
    }

    /** `get_vendor_scripts()`: every registered handle, once each, in the order of registration. */
    function GetVendorScripts(): (r: seq<string>)
      reads this
      requires Valid()
      ensures NoDuplicates(r)
      ensures forall h :: h in r <==> h in handles
    {
      handles
    }
  }

  // ---------------------------------------------------------------- getMinFile

  /** A file name or PHP's `false`. */
  datatype MinFile = Path(path: string) | NotFound

  predicate EndsWith(s: string, suffix: string)
  {
    |suffix| <= |s| && s[|s| - |suffix|..] == suffix
  }

  /** `substr_replace($url, '.min', -n, 0)`: `.min` inserted before the last `n` characters. */
  function InsertMin(url: string, n: nat): string
    requires n <= |url|
  {
    url[..|url| - n] + ".min" + url[|url| - n..]
  }

  /** `SCRIPT_DEBUG` is off when it is not defined or is exactly `false`. */
  predicate ScriptDebugOff(scriptDebug: Option<Value>)
  {
    scriptDebug.None? || scriptDebug.value == Bool(false)
  }

  /** The candidate `$url_new`: set only outside script debugging, for names ending `.js` or `.css`. */
  function MinCandidate(url: string, scriptDebug: Option<Value>): Option<string>
  {
    if !ScriptDebugOff(scriptDebug) then None
    else
      var afterJs := if EndsWith(url, ".js") then Some(InsertMin(url, 3)) else None;
      if EndsWith(url, ".css") then Some(InsertMin(url, 4)) else afterJs
  }

  /**
   * `getMinFile($url, $default_to_original)`: the minified name when it
   * exists (`exists` stands for `file_exists` on the name with the content
   * URL replaced by the content directory), else the original name when
   * asked to default to it, else `false`.
   */
  function GetMinFile(url: string, defaultToOriginal: bool, scriptDebug: Option<Value>,
                      fileExists: string -> bool): (r: MinFile)
    ensures var candidate := MinCandidate(url, scriptDebug);
            candidate.Some? && fileExists(candidate.value) ==> r == Path(candidate.value)
    ensures r == Path(url) || r == NotFound ||
            (MinCandidate(url, scriptDebug).Some? && r == Path(MinCandidate(url, scriptDebug).value))
  {
    var candidate := MinCandidate(url, scriptDebug);
    if candidate.Some? && fileExists(candidate.value) then Path(candidate.value)
    else if defaultToOriginal then Path(url)
    else NotFound
  }

  /**
   * For a name ending with the extension `ext`, the minified name is the
   * original with `.min` before the extension, and dropping that `.min`
   * gives the original back.
   */
  lemma InsertMinBeforeExtension(url: string, ext: string)
    requires EndsWith(url, ext)
    ensures InsertMin(url, |ext|) == url[..|url| - |ext|] + ".min" + ext
    ensures var m := InsertMin(url, |ext|);
            m[..|m| - |ext| - 4] + m[|m| - |ext|..] == url
  {
    var m := InsertMin(url, |ext|);
    var stem := url[..|url| - |ext|];
    assert m == stem + ".min" + ext;
    assert m[..|m| - |ext| - 4] == stem;
    assert m[|m| - |ext|..] == ext;
    assert url == stem + url[|url| - |ext|..];
  }

  /**
   * `getMinFile` answers an existing minified candidate whenever there is
   * one, and otherwise the original when asked to default to it; it answers `false` exactly when it is not asked to default to
   * the original and no existing minified candidate was found; with script
   * debugging on it answers the original or `false`; any other name it
   * answers is an existing `.min.js` or `.min.css` name made from the
   * original outside script debugging.
   */
  lemma GetMinFileSpec(url: string, defaultToOriginal: bool, scriptDebug: Option<Value>, fileExists: string -> bool)
    ensures var c := MinCandidate(url, scriptDebug);
            c.Some? && fileExists(c.value) ==> GetMinFile(url, defaultToOriginal, scriptDebug, fileExists) == Path(c.value)
    ensures ((MinCandidate(url, scriptDebug).None? || !fileExists(MinCandidate(url, scriptDebug).value)) &&
             defaultToOriginal) ==> GetMinFile(url, defaultToOriginal, scriptDebug, fileExists) == Path(url)
    ensures var r := GetMinFile(url, defaultToOriginal, scriptDebug, fileExists);
            r == NotFound <==> !defaultToOriginal &&
                               (MinCandidate(url, scriptDebug).None? || !fileExists(MinCandidate(url, scriptDebug).value))
    ensures !ScriptDebugOff(scriptDebug) ==>
              GetMinFile(url, defaultToOriginal, scriptDebug, fileExists) == (if defaultToOriginal then Path(url) else NotFound)
    ensures var r := GetMinFile(url, defaultToOriginal, scriptDebug, fileExists);
            r.Path? && r.path != url ==>
              ScriptDebugOff(scriptDebug) && fileExists(r.path) &&
              ((EndsWith(url, ".js") && r.path == url[..|url| - 3] + ".min.js") ||
               (EndsWith(url, ".css") && r.path == url[..|url| - 4] + ".min.css"))
  {
    var candidate := MinCandidate(url, scriptDebug);
    if candidate.Some? {
      if EndsWith(url, ".css") {
        InsertMinBeforeExtension(url, ".css");
        assert ".min" + ".css" == ".min.css";
        assert candidate.value == url[..|url| - 4] + ".min.css";
      } else {
        InsertMinBeforeExtension(url, ".js");
        assert ".min" + ".js" == ".min.js";
        assert candidate.value == url[..|url| - 3] + ".min.js";
      }
    }
  }
}

=== FILE: Wrappers.dfy ===
/** Optional values and the one run-time error the scripts can raise. */
module Wrappers {

  /** A value that may be absent: JavaScript's `undefined`, PHP's `null`/unset. */
  datatype Option<+T> = None | Some(value: T)

  /** The exceptions a modelled JavaScript expression can throw. */
  datatype JsError = TypeError

  /** A computation that either produces a value or throws. */
  datatype Outcome<+T> = Returns(value: T) | Throws(error: JsError)
}
